=== FILE: README.md ===
# GUSLI backend of NIXL — a Dafny model

This project models the core of the GUSLI backend plugin of NIXL
(`nixlGusliEngine`). The plugin moves data between process memory (DRAM) and
block devices through the GUSLI client library. The model covers:

- **Status translation.** `conErrConv` maps GUSLI connect results to NIXL
  statuses. `getCompStatus` maps an io's completion code to the status a poll
  reports (module `StatusConv`).
- **The device reference-count table** (`bdevs_`), which `bdevOpen` and
  `bdevClose` update and which `registerMem` and `deregisterMem` drive (module
  `DeviceTable`). Each operation is a pure step on the table. The engine's
  methods are proved to perform exactly these steps (module `Engine`).
- **The scatter-gather map** (`gusli::io_multi_map_t`). It is written into the
  memory of the first local descriptor and has a size check (module `SgMap`).
- **The request nodes** (module `Requests`):
  - the single-device node, with `set1Buf`, `setBufs`, `exec`, the completion
    callback and `pollStatus`;
  - the compound node, with `addSubIO`, `exec` and `pollStatus`, which
    aggregates its children's completion codes.
- **prepXfer's classifier** (module `Classifier`). It validates the request
  and picks the single-range, single-device scatter-gather or compound
  strategy. This choice is a pure function, `PrepOutcome`. The engine's
  `PrepXfer` builds exactly the nodes that function describes.
- **The engine itself** (module `Engine`): its constant capabilities,
  `postXfer`, `checkXfer` and `releaseReqH`.

The GUSLI library is outside the model. Each answer it gives becomes a
parameter of the operation that consults it:

- `bdev_connect`, `bdev_disconnect`, `bdev_bufs_register` and
  `bdev_bufs_unregist` return a `ConnectRv`;
- `bdev_get_info` returns a `BdevInfo`;
- an io's `get_error` returns an `IoError`.

The engine's ghost `trace` records, in order, the device-table library calls
the engine makes: connect, get_info, disconnect, and buffer registration and
unregistration. This makes claims like "connect is called only for a device
that is not yet open" statable. Io submission, `get_error`, the io set-up calls
and `try_cancel` are not in the trace. A node's ghost `submits` counts how
often its io was submitted, and a compound node's ghost `submitted` lists the
children it has submitted, in submission order.

Main results:

- **Reference counting.** Open and close change exactly one entry by exactly
  one reference. They keep every entry held by at least one reference, and
  they never change a device's descriptor.
  - A successful open followed by a close restores the table when the device
    was already open or the disconnect succeeds.
  - A failed registration leaves the table as it was, under the same
    condition.
  - Registering DRAM and then deregistering it with a successful buffer
    unregistration restores the table, under the same condition.
- **Cross-strategy equivalence** (`PrepTransfersPairs`). Whichever node
  prepXfer builds, its ios move exactly the descriptor pairs from
  `FirstDataPair` on. Each pair moves between its local buffer and its remote
  offset, on its own device's descriptor.
- **Scatter-gather bounds.** `SetBufs` writes an entry only when the whole map
  fits. It then writes exactly the entries built from pairs 1..n-1.
  `FitsIffWithinCapacity` shows the size check is exact.
- **Compound completion.** `CompoundReq.PollStatus` performs the step
  `CompoundPoll` on its children's observed codes:
  - the node stays in progress while any child is in transfer;
  - otherwise the first failing child, in index order, decides its status
    (`FirstFailureWins`);
  - once terminal, a poll returns the same status without touching any child
    (`CompoundPollIdempotent`).

Behaviour of the code that the model states as it is:

- **The entry count is stored before the size check.** `setBufs`
  (`src/plugins/gusli/gusli_backend.cpp:306-307`) stores the entry count at
  the start of local[0] and only then compares the map size with `local[0].len`.
  So a refused request still overwrites the start of local[0]. When
  `local[0].len` is shorter than the 4-byte count, the count lands past the
  region. `SingleReq.SetBufs` and `GusliEngine.PrepXfer` state that the count
  is always written on the scatter-gather path, and they record the
  out-of-region store in the ghost field `MultiMap.overrun`.
  `CountFitsWhenMapFits` shows that only a refused request can cause it.
  The entries themselves are never written on a refusal.
- **A device that is not open is not detected.** `getGidOfBDev`
  (`src/plugins/gusli/gusli_backend.h:107-111`) dereferences the table lookup
  without any check. The model therefore makes "every remote device is open"
  a precondition of `PrepXfer` (`Classifier.Resolvable`), not an error path.
- **Empty descriptor lists are not refused.** prepXfer
  (`src/plugins/gusli/gusli_backend.cpp:428-434`) only compares the two
  counts and then reads `remote[0]`, so a non-empty list is also part of
  `Resolvable`.
- **"-sgl" changes which pairs are moved.** With "-sgl", pair 0 is the map's
  own buffer and carries no data. This holds for the scatter-gather node and,
  since prepXfer skips pair 0 (`src/plugins/gusli/gusli_backend.cpp:456`),
  for a compound node too. A node built from the same list without "-sgl"
  moves pairs 0..n-1 instead. The test builds its lists with such a
  placeholder first pair (`test/unit/plugins/gusli/nixl_gusli_test.cpp:167-172`).
  `PrepTransfersPairs` states this, with `FirstDataPair` choosing the first
  pair moved.
- **A failed disconnect is never retried.** On a failed disconnect `bdevClose`
  puts the last reference back (`src/plugins/gusli/gusli_backend.cpp:143-147`).
  The comment at lines 144-145 expects a later open or close to close the
  device eventually. `FailedDisconnectIsNotRetried` shows otherwise. The
  restored reference belongs to no registration, so each later balanced
  open/close pair ends at one reference again and never reaches the
  disconnect.
- **A failed deregistration leaks its reference.** deregisterMem frees its
  metadata on every path (`src/plugins/gusli/gusli_backend.cpp:217-218`).
  `DeregisterFailureLeaksReference` covers the two failure cases:
  - a failed buffer unregistration leaves the registration's reference in the
    table;
  - a failed final disconnect leaves one reference in the table.
  In both cases no metadata is left that could release the reference.

## Model

| member | source | states |
|---|---|---|
| `StatusConv.ConErrConv` | src/plugins/gusli/gusli_backend.cpp:39-45 | success exactly for C_OK, not-found exactly for C_NO_DEVICE, invalid-param exactly for C_WRONG_ARGUMENTS, backend error for every other code; never in-progress or not-supported |
| `StatusConv.CompStatus` | src/plugins/gusli/gusli_backend.cpp:260-267 | in-progress exactly while the io is in transfer, success exactly for E_OK, invalid-param exactly for E_INVAL_PARAMS, backend error for every other code |
| `Types.IoTypeOf` | src/plugins/gusli/gusli_backend.cpp:251-252 | a node's GUSLI direction is write exactly when the NIXL operation is a write, and read otherwise |
| `Classifier.IsEntireIOto1Bdev` | src/plugins/gusli/gusli_backend.cpp:47-54 | the scan answers true if and only if every remote descriptor is on the first one's device; a one-element list always answers true |
| `Classifier.Contains` | src/plugins/gusli/gusli_backend.cpp:437-438 | a match needs a string at least as long as the pattern; a string that starts with the pattern always matches (the full characterisation is `Classifier.ContainsIff`) |
| `Classifier.HasSglMem` | src/plugins/gusli/gusli_backend.cpp:437-438 | the flag is set only when an option string is given (one long enough to hold "-sgl") |
| `Classifier.ContainsIff` | src/plugins/gusli/gusli_backend.cpp:437-438 | the substring search finds "-sgl" exactly when it occurs at some position of the option string |
| `Classifier.SglFlagAnywhere` | src/plugins/gusli/gusli_backend.cpp:437-438 | "-sgl" anywhere in the option string sets the flag, whatever surrounds it |
| `Classifier.RangeParamsTransfers` | src/plugins/gusli/gusli_backend.cpp:454-463 | the compound node's children move exactly the descriptor pairs they were built from, in order, each on its own device's descriptor |
| `Classifier.PrepTransfersPairs` | src/plugins/gusli/gusli_backend.cpp:434-465 | every node prepXfer builds moves exactly the descriptor pairs from FirstDataPair on, whichever strategy is chosen |
| `Classifier.PrepRejects` | src/plugins/gusli/gusli_backend.cpp:422-432 | every refusal is invalid-param; a wrong local or remote memory class or a count mismatch is always refused; a valid-shape refusal happens only on the scatter-gather path |
| `Classifier.PrepSingleRange` | src/plugins/gusli/gusli_backend.cpp:441-445 | a single range always gives one single-range io over pair 0 and never takes the scatter-gather path, with or without "-sgl" |
| `Classifier.PrepScatterGather` | src/plugins/gusli/gusli_backend.cpp:446-452 | on the scatter-gather path the request is refused exactly when the map of n-1 entries does not fit in local[0]; otherwise one node carries n-1 ranges |
| `Classifier.PrepCompoundChildren` | src/plugins/gusli/gusli_backend.cpp:453-465 | a compound node has n children, or n-1 when "-sgl" was given; it has at least one; child k uses the descriptor of the device of its own remote descriptor |
| `Classifier.PrepOutcome` | src/plugins/gusli/gusli_backend.cpp:422-465 | every refusal carries invalid-param; a built node always comes from a valid-shape request and carries at least one range, exactly one for a single-range node (the per-strategy results are the Prep lemmas above) |
| `SgMap.FitsIffWithinCapacity` | src/plugins/gusli/gusli_backend.cpp:306-313 | the size check passes exactly when the header fits and the n-1 entries fit in the region's entry slots, so no entry is written past the region |
| `SgMap.MapSize` | src/plugins/gusli/gusli_backend.cpp:307 | the map's size always covers its header, and covers one more entry whenever the map has any entry |
| `SgMap.CountFitsWhenMapFits` | src/plugins/gusli/gusli_backend.cpp:306-313 | a map that passes the size check has room for its entry count, so only a refused request stores the count past the region |
| `SgMap.SgEntries` | src/plugins/gusli/gusli_backend.cpp:321-327 | n-1 entries; entry k holds local[k+1]'s address and length and remote[k+1]'s device offset |
| `SgMap.MultiMap.constructor` | src/plugins/gusli/gusli_backend.cpp:304-305 | the map over local[0]'s region has exactly as many entry slots as fit in the region's length |
| `DeviceTable.OpenCounts` | src/plugins/gusli/gusli_backend.cpp:89-121 | open adds exactly one reference on success and changes nothing on failure; it reports the connect error; connect is called exactly for a device not yet in the table; a new entry holds the device's information with one reference; no other entry changes |
| `DeviceTable.Open` | src/plugins/gusli/gusli_backend.cpp:89-121 | open succeeds exactly when the device is already open or connect succeeds; a failed open leaves the table as it was |
| `DeviceTable.CloseCounts` | src/plugins/gusli/gusli_backend.cpp:123-158 | closing an unknown device succeeds and changes nothing; a successful close drops exactly one reference, erasing the entry at zero; a failed close leaves the table unchanged and reports the disconnect error; disconnect is called exactly for the last reference; no other entry changes |
| `DeviceTable.Close` | src/plugins/gusli/gusli_backend.cpp:123-158 | close calls at most disconnect, on that device; it either succeeds or reports that disconnect's converted error |
| `DeviceTable.OpenCloseKeepValid` | src/plugins/gusli/gusli_backend.h:98-102 | open and close keep every table entry held by at least one reference |
| `DeviceTable.OpenCloseKeepInfo` | src/plugins/gusli/gusli_backend.h:107-111 | open and close never change the descriptor getGidOfBDev returns for a device that stays open |
| `DeviceTable.OpenCloseRoundTrip` | src/plugins/gusli/gusli_backend.cpp:89-158 | a successful open followed by a close restores the table and succeeds, when the device was already open or its disconnect succeeds |
| `DeviceTable.FailedDisconnectIsNotRetried` | src/plugins/gusli/gusli_backend.cpp:142-147 | after a failed last disconnect the entry keeps one reference; a later open/close pair calls no library function and leaves that one reference |
| `DeviceTable.RegisterOutcome` | src/plugins/gusli/gusli_backend.cpp:175-211 | metadata is returned exactly on success; not-supported exactly for memory other than DRAM or block device; non-DRAM memory never touches the table or the library; the metadata holds the device and one buffer for the registered range |
| `DeviceTable.Register` | src/plugins/gusli/gusli_backend.cpp:175-211 | metadata is produced exactly when registration succeeds; memory other than DRAM calls no library function and leaves the table unchanged |
| `DeviceTable.RegisterFailureRestoresTable` | src/plugins/gusli/gusli_backend.cpp:194-207 | a failed registration leaves the table as it was, when the device was already open or the undoing disconnect succeeds |
| `DeviceTable.RegisterSuccessAddsReference` | src/plugins/gusli/gusli_backend.cpp:191-210 | successful DRAM registration adds exactly one reference to its device; block-device registration leaves the table unchanged; no other entry changes |
| `DeviceTable.DeregisterOutcome` | src/plugins/gusli/gusli_backend.cpp:213-237 | null metadata is invalid-param; block-device memory changes nothing; a failed unregistration keeps the table and reports its error; a successful one performs bdevClose; the table stays valid |
| `DeviceTable.Deregister` | src/plugins/gusli/gusli_backend.cpp:213-237 | null metadata is invalid-param; null or block-device metadata calls nothing and keeps the table; DRAM metadata first asks the library to unregister its device's buffers |
| `DeviceTable.DeregisterFailureLeaksReference` | src/plugins/gusli/gusli_backend.cpp:213-237 | after a successful DRAM registration, a failed unregistration keeps the registration's reference in the table, and a failed final disconnect keeps one reference; both report an error while the metadata is freed |
| `DeviceTable.RegisterDeregisterRoundTrip` | src/plugins/gusli/gusli_backend.cpp:175-237 | registering DRAM and deregistering the returned metadata restores the table and succeeds, when the device was already open or its final disconnect succeeds |
| `Requests.FirstFailure` | src/plugins/gusli/gusli_backend.cpp:394-406 | the result is E_OK or one of the children's codes; it is E_OK exactly when every child succeeded |
| `Requests.Aggregate` | src/plugins/gusli/gusli_backend.cpp:388-406 | the compound code is E_OK or one of the children's codes; it stays in transfer (non-terminal) exactly while some child is in transfer, and it is E_OK exactly when every child succeeded |
| `Requests.FirstFailureWins` | src/plugins/gusli/gusli_backend.cpp:394-402 | with no child in transfer, the first failing child in index order decides the compound code, whatever later children report |
| `Requests.CompoundPollIdempotent` | src/plugins/gusli/gusli_backend.cpp:386-389 | after a poll that reports a terminal status, every later poll reports the same status and keeps the same code, whatever the children report then |
| `Requests.CompoundPoll` | src/plugins/gusli/gusli_backend.cpp:386-407 | the reported status is always the conversion of the new code; a terminal code is kept; from a non-terminal code the poll is in progress exactly when some child is in transfer |
| `Requests.SingleReq.constructor` | src/plugins/gusli/gusli_backend.cpp:280-283 | a new node has the GUSLI direction of the NIXL operation, a completion callback, no range and no submission |
| `Requests.SingleReq.Set1Buf` | src/plugins/gusli/gusli_backend.cpp:290-300 | the io moves local.len bytes at local.addr to or from offset remote.addr of device gid; nothing else changes |
| `Requests.SingleReq.SetBufs` | src/plugins/gusli/gusli_backend.cpp:302-343 | the entry count n-1 is always written, and recorded as stored past the region when local[0] is shorter than the count; success exactly when the map fits in local[0]; on success the first n-1 slots hold SgEntries, later slots are untouched and the io covers those entries; on refusal no entry and no io parameter changes |
| `Requests.SingleReq.Exec` | src/plugins/gusli/gusli_backend.cpp:344-353 | the node is marked in transfer, its io is submitted once more, and in-progress is reported |
| `Requests.SingleReq.CompletionCallback` | src/plugins/gusli/gusli_backend.cpp:272-277 | the io's completion code becomes the node's code; nothing else changes |
| `Requests.SingleReq.PollStatus` | src/plugins/gusli/gusli_backend.cpp:354-359 | the node takes the io's own code only when it has no callback; the poll reports that code's status |
| `Requests.CompoundReq.constructor` | src/plugins/gusli/gusli_backend.cpp:365-368 | a new compound node has the operation's direction, no children and has submitted nothing |
| `Requests.CompoundReq.AddSubIO` | src/plugins/gusli/gusli_backend.cpp:370-377 | exactly one new child is appended, set up for one range; earlier children, the node's code and its submission log are unchanged |
| `Requests.CompoundReq.Exec` | src/plugins/gusli/gusli_backend.cpp:378-385 | the node and every child are marked in transfer, each child is submitted exactly once more, the children are submitted in index order (the node's submission log grows by exactly its child list), and in-progress is reported |
| `Requests.FirstPending` | src/plugins/gusli/gusli_backend.cpp:390-393 | the index where the first pass stops: no child before it is in transfer, and the child at it is, unless every child was polled |
| `Requests.CompoundReq.PollStatus` | src/plugins/gusli/gusli_backend.cpp:386-407 | the new code and the status are CompoundPoll of the old code and the children's observed codes; a terminal code is returned without changing any child; otherwise the children up to the first one in transfer show their observed codes and the rest are untouched |
| `Requests.CompoundReq.PollUntilPending` | src/plugins/gusli/gusli_backend.cpp:390-393 | polls children in order up to the first one in transfer; it reports pending exactly when some child is in transfer; polled children show their observed codes, later ones are untouched |
| `Requests.CompoundReq.FirstFailedChild` | src/plugins/gusli/gusli_backend.cpp:394-403 | with no child in transfer, gives the first child that did not succeed, or the child count when all succeeded; every child keeps its observed code |
| `Engine.SupportedMemsAreRegistrable` | src/plugins/gusli/gusli_backend.h:25-28 | the advertised memory classes are exactly those registerMem does not refuse as not supported |
| `Engine.FixedEngineBehaviour` | src/plugins/gusli/gusli_backend.h:34-70 | local transfers only, no notifications, no progress thread; agent connect/disconnect and metadata unload succeed; local metadata loads as itself; supported memory is block device and DRAM |
| `Engine.GusliEngine.constructor` | src/plugins/gusli/gusli_backend.h:102 | an engine starts with no open device and no library call |
| `Engine.GusliEngine.GetGidOfBDev` | src/plugins/gusli/gusli_backend.h:107-111 | the descriptor is the one the table stores for an open device |
| `Engine.GusliEngine.BdevOpen` | src/plugins/gusli/gusli_backend.cpp:89-121 | the table, the status and the library calls are those of the Open step; the table stays valid |
| `Engine.GusliEngine.BdevClose` | src/plugins/gusli/gusli_backend.cpp:123-158 | the table, the status and the library calls are those of the Close step; the table stays valid |
| `Engine.GusliEngine.RegisterMem` | src/plugins/gusli/gusli_backend.cpp:175-211 | the table, status, metadata and library calls are those of the Register step; the table stays valid |
| `Engine.GusliEngine.DeregisterMem` | src/plugins/gusli/gusli_backend.cpp:213-237 | the table, status and library calls are those of the Deregister step; the table stays valid |
| `Engine.GusliEngine.PrepXfer` | src/plugins/gusli/gusli_backend.cpp:410-475 | success exactly when a handle is returned; a refusal has PrepOutcome's status; a built node is new, unsubmitted, has the operation's direction and a completion callback, and is of PrepOutcome's kind with its io parameters (a compound node's children in order, each new, unsubmitted and with a callback); local[0]'s memory is written only on the scatter-gather path, where the entry count is always stored, a successful build writes exactly the first n-1 entry slots with the scatter-gather entries and leaves every later slot as it was, and a refusal writes no slot |
| `Engine.GusliEngine.BuildCompound` | src/plugins/gusli/gusli_backend.cpp:454-463 | a new compound node whose children, in order, carry the single-range io of each descriptor pair from the start index on, each on its own remote device; every child is new, unsubmitted, has a callback and the operation's direction |
| `Engine.GusliEngine.PostXfer` | src/plugins/gusli/gusli_backend.cpp:477-491 | the handle's node, and every child of a compound node, is marked in transfer and submitted once more with its io parameters unchanged; a compound node submits its children in index order (its submission log grows by exactly its child list); in-progress is reported |
| `Engine.GusliEngine.CheckXfer` | src/plugins/gusli/gusli_backend.cpp:493-497 | a single node reports its observed code's status and keeps its parameters and submission count; a compound node performs CompoundPoll on its children's observed codes, changes no child once terminal, and otherwise updates the children up to the first one in transfer; no child's parameters or submission count change |
| `Engine.GusliEngine.ReleaseReqH` | src/plugins/gusli/gusli_backend.cpp:499-503 | releasing a handle always succeeds |

## Left out

- The engine constructor's library initialisation and the destructor's library shutdown (`gusli_backend.cpp:57-87`) are not modelled. They parse parameters and call into the library. The `initErr` flag they set is not consulted by any modelled operation.
- Logging is not modelled. The trace line at the end of prepXfer reads `opt_args->customParam` even when no options were given. This is left out with the rest of the logging.
- Concurrency is not modelled. The completion callback runs on a library thread and races with polling. The model delivers it as one sequential step (`SingleReq.CompletionCallback`), and no other access is modelled as concurrent.
- Cancellation is not modelled: the single node's destructor calls `try_cancel`, and destroying the compound node cancels its children. Release is modelled only as its returned status.
- The uring branch of `setBufs` is not modelled. It is guarded by `false` and never runs, so every node keeps its completion callback.
- `Requests.CompoundReq.PollStatus` and `Engine.GusliEngine.CheckXfer`: each child's io code is one value per poll, used by both passes over the children. A completion landing between the two passes is not modelled.
- `SgMap.MapSize`: the 8-byte header size of `io_multi_map_t` is an assumption. The GUSLI client header is not part of this model. The 24-byte entry size comes from the comment at `test/unit/plugins/gusli/nixl_gusli_test.cpp:117`. The model writes entries into typed slots, not bytes.
- Integers are unbounded. The 32-bit `ref_count` and the unsigned descriptor counts cannot overflow in the model.
- Device ids, addresses and offsets are naturals. The `backend_bdev_id` conversion (`set_from`) is not modelled.
- The plugin entry points that create and destroy the engine are not part of this model.
- `Engine.GusliEngine.PrepXfer` requires, when the shape checks pass, that the remote list is non-empty and every remote device is open. The code does not check either. It reads `remote[0]` and dereferences the table lookup of `getGidOfBDev`, so other inputs have no defined behaviour to model.

=== FILE: classifier.dfy ===
/**
 * The request classifier of prepXfer: validation of the descriptor-list pair
 * and the choice between a single-range node, a single-device scatter-gather
 * node and a compound multi-device node, given as a pure function of the
 * inputs and the device table. The engine's prepXfer builds exactly the nodes
 * this function describes.
 */
module Classifier {
  import opened Types
  import opened StatusConv
  import opened SgMap
  import opened DeviceTable
  import opened Requests

  // ---------------------------------------------------------------------------
  // Option string

  /** Whether `pat` occurs in `s` as a contiguous substring (std::string::find). */
  function Contains(s: string, pat: string): (b: bool)
    ensures b ==> |pat| <= |s|
    ensures |pat| <= |s| && s[..|pat|] == pat ==> b
    decreases |s|
  {
    if |s| < |pat| then false
    else s[..|pat|] == pat || Contains(s[1..], pat)
  }

  /** `pat` occurs in `s` starting at position `i`. */
  predicate OccursAt(s: string, pat: string, i: nat)
  {
    i + |pat| <= |s| && s[i..i + |pat|] == pat
  }

  /** Contains is exactly substring occurrence at some position. */
  lemma {:induction false} ContainsIff(s: string, pat: string)
    ensures Contains(s, pat) <==> exists i: nat :: OccursAt(s, pat, i)
    decreases |s|
  {
    if |s| < |pat| {
      forall i: nat ensures !OccursAt(s, pat, i) { }
    } else if s[..|pat|] == pat {
      assert OccursAt(s, pat, 0);
    } else {
      ContainsIff(s[1..], pat);
      if Contains(s[1..], pat) {
        var i: nat :| OccursAt(s[1..], pat, i);
        assert s[i + 1..i + 1 + |pat|] == s[1..][i..i + |pat|];
        assert OccursAt(s, pat, i + 1);
      }
      if i: nat :| OccursAt(s, pat, i) {
        assert i != 0;
        assert s[1..][i - 1..i - 1 + |pat|] == s[i..i + |pat|];
        assert OccursAt(s[1..], pat, i - 1);
      }
    }
  }

  /** The caller asked for the scatter-gather strategy: an option string is
      given and contains "-sgl". */
  function HasSglMem(opt: Option<string>): (b: bool)
    ensures b ==> opt.Some? && |opt.value| >= 4
  {
    opt.Some? && Contains(opt.value, "-sgl")
  }

  /** The flag is found anywhere in the option string. */
  lemma SglFlagAnywhere(prefix: string, suffix: string)
    ensures HasSglMem(Some(prefix + "-sgl" + suffix))
  {
    var s := prefix + "-sgl" + suffix;
    assert OccursAt(s, "-sgl", |prefix|);
    ContainsIff(s, "-sgl");
  }

  // ---------------------------------------------------------------------------
  // Device scan

  /** Every remote descriptor is on the device of the first one. */
  predicate OnOneDevice(remote: seq<MetaDesc>)
    requires |remote| > 0
  {
    forall i :: 0 <= i < |remote| ==> remote[i].devId == remote[0].devId
  }

  /** isEntireIOto1Bdev: scans the remote list for a descriptor on a device
      other than the first one's. */
  method IsEntireIOto1Bdev(remote: seq<MetaDesc>) returns (b: bool)
    requires |remote| > 0
    ensures b <==> OnOneDevice(remote)
    ensures |remote| == 1 ==> b
  {
    var devId := remote[0].devId;
    var i := 1;
    while i < |remote|
      invariant 1 <= i <= |remote|
      invariant forall k :: 0 <= k < i ==> remote[k].devId == devId
    {
      if remote[i].devId != devId {
        return false;
      }
      i := i + 1;
    }
    return true;
  }

  // ---------------------------------------------------------------------------
  // Classification

  /** The structural checks of prepXfer: process memory on the local side,
      block-device memory on the remote side, equally many descriptors. */
  predicate ValidShape(local: DescList, remote: DescList)
  {
    local.memType == DramSeg && remote.memType == BlkSeg && |local.descs| == |remote.descs|
  }

  /** What prepXfer demands of its caller once the shape checks pass: a
      non-empty list whose every device is already open in the table. */
  ghost predicate Resolvable(t: Table, remote: DescList)
  {
    |remote.descs| > 0 && forall i :: 0 <= i < |remote.descs| ==> remote.descs[i].devId in t
  }

  /** The kind of node prepXfer builds. */
  datatype NodeKind = SingleNode | CompoundNode

  /** The outcome of prepXfer: refused with a status, or a node of some kind
      whose ios are set up with `params` (one per child for a compound node). */
  datatype PrepResult = Rejected(status: Status) | Built(kind: NodeKind, params: seq<IoParams>)

  /** The single-range parameters of the descriptor pairs from index `from` on,
      each on the device of its own remote descriptor. */
  function RangeParams(t: Table, io: IoType, local: seq<MetaDesc>, remote: seq<MetaDesc>, from: nat): (ps: seq<IoParams>)
    requires from <= |remote| <= |local|
    requires forall i :: 0 <= i < |remote| ==> remote[i].devId in t
    ensures |ps| == |remote| - from
  {
    seq(|remote| - from, k requires 0 <= k < |remote| - from =>
      Range1(io, Gid(t, remote[from + k].devId), remote[from + k].addr, local[from + k].len, local[from + k].addr))
  }

  /** prepXfer: refuse an invalid shape; one range gives a single-range node;
      several ranges on one device with "-sgl" give a scatter-gather node (or
      are refused when the map does not fit in local[0]); anything else gives a
      compound node over every pair, or over pairs 1..n-1 when "-sgl" was given. */
  function PrepOutcome(t: Table, op: XferOp, local: DescList, remote: DescList, opt: Option<string>): (p: PrepResult)
    requires ValidShape(local, remote) ==> Resolvable(t, remote)
    ensures p.Rejected? ==> p.status == ErrInvalidParam
    ensures p.Built? ==> ValidShape(local, remote) && |p.params| >= 1
    ensures p.Built? && p.kind == SingleNode ==> |p.params| == 1
  {
    if local.memType != DramSeg then Rejected(ErrInvalidParam)
    else if remote.memType != BlkSeg then Rejected(ErrInvalidParam)
    else if |local.descs| != |remote.descs| then Rejected(ErrInvalidParam)
    else
      var l, r, io := local.descs, remote.descs, IoTypeOf(op);
      var gid := Gid(t, r[0].devId);
      if |r| == 1 then
        Built(SingleNode, [Range1(io, gid, r[0].addr, l[0].len, l[0].addr)])
      else if OnOneDevice(r) && HasSglMem(opt) then
        if MapSize(|r| - 1) > l[0].len then Rejected(ErrInvalidParam)
        else Built(SingleNode, [Multi(io, gid, SgEntries(l, r))])
      else
        Built(CompoundNode, RangeParams(t, io, l, r, if HasSglMem(opt) then 1 else 0))
  }

  /** The scatter-gather strategy is taken: valid shape, several ranges, all
      on one device, "-sgl" given. Only then is local[0]'s memory written. */
  ghost predicate SgPath(local: DescList, remote: DescList, opt: Option<string>)
  {
    ValidShape(local, remote) && |remote.descs| > 1 && OnOneDevice(remote.descs) && HasSglMem(opt)
  }

  // ---------------------------------------------------------------------------
  // What the built nodes transfer

  /** One byte range moved between process memory and a device. */
  datatype Transfer = Transfer(gid: int, ptr: nat, len: nat, lba: nat)

  /** The ranges one io is set up to move. */
  function ParamsTransfers(p: IoParams): seq<Transfer>
  {
    match p
    case NoRange => []
    case Range1(_, gid, lba, len, ptr) => [Transfer(gid, ptr, len, lba)]
    case Multi(_, gid, ranges) =>
      seq(|ranges|, k requires 0 <= k < |ranges| =>
        Transfer(gid, ranges[k].ptr, ranges[k].byteLen, ranges[k].offsetLba))
  }

  /** The ranges a node moves: its ios' ranges, in order. */
  function AllTransfers(ps: seq<IoParams>): seq<Transfer>
  {
    if ps == [] then [] else ParamsTransfers(ps[0]) + AllTransfers(ps[1..])
  }

  /** The descriptor pairs from index `from` on, as ranges on their own devices. */
  function PairTransfers(t: Table, local: seq<MetaDesc>, remote: seq<MetaDesc>, from: nat): (ts: seq<Transfer>)
    requires from <= |remote| <= |local|
    requires forall i :: 0 <= i < |remote| ==> remote[i].devId in t
    ensures |ts| == |remote| - from
  {
    seq(|remote| - from, k requires 0 <= k < |remote| - from =>
      Transfer(Gid(t, remote[from + k].devId), local[from + k].addr, local[from + k].len, remote[from + k].addr))
  }

  /** The first descriptor pair a transfer moves: pair 0 is the scatter-gather
      buffer (and not data) when "-sgl" is given with several ranges. */
  function FirstDataPair(remote: DescList, opt: Option<string>): nat
  {
    if |remote.descs| > 1 && HasSglMem(opt) then 1 else 0
  }

  /** A compound node's children move exactly the pairs they were built from. */
  lemma {:induction false} RangeParamsTransfers(t: Table, io: IoType, local: seq<MetaDesc>, remote: seq<MetaDesc>, from: nat)
    requires from <= |remote| <= |local|
    requires forall i :: 0 <= i < |remote| ==> remote[i].devId in t
    ensures AllTransfers(RangeParams(t, io, local, remote, from)) == PairTransfers(t, local, remote, from)
    decreases |remote| - from
  {
    var ps := RangeParams(t, io, local, remote, from);
    if from < |remote| {
      RangeParamsTransfers(t, io, local, remote, from + 1);
      assert ps[1..] == RangeParams(t, io, local, remote, from + 1);
      assert PairTransfers(t, local, remote, from) ==
             [PairTransfers(t, local, remote, from)[0]] + PairTransfers(t, local, remote, from + 1);
    }
  }

  /** Cross-strategy equivalence: whatever node prepXfer builds, its ios move
      exactly the descriptor pairs from FirstDataPair on, each between its
      local buffer and its remote device offset on the descriptor of its own
      device; the strategy changes how the ranges are submitted, not which. */
  lemma PrepTransfersPairs(t: Table, op: XferOp, local: DescList, remote: DescList, opt: Option<string>)
    requires ValidShape(local, remote) ==> Resolvable(t, remote)
    requires PrepOutcome(t, op, local, remote, opt).Built?
    ensures ValidShape(local, remote) && Resolvable(t, remote)
    ensures AllTransfers(PrepOutcome(t, op, local, remote, opt).params) ==
            PairTransfers(t, local.descs, remote.descs, FirstDataPair(remote, opt))
  {
    var l, r, io := local.descs, remote.descs, IoTypeOf(op);
    var ps := PrepOutcome(t, op, local, remote, opt).params;
    if |r| == 1 {
      assert AllTransfers(ps) == ParamsTransfers(ps[0]);
    } else if OnOneDevice(r) && HasSglMem(opt) {
      assert AllTransfers(ps) == ParamsTransfers(ps[0]);
      var es := SgEntries(l, r);
      forall k | 0 <= k < |es|
        ensures ParamsTransfers(ps[0])[k] == PairTransfers(t, l, r, 1)[k]
      {
        assert r[k + 1].devId == r[0].devId;
      }
    } else {
      RangeParamsTransfers(t, io, l, r, if HasSglMem(opt) then 1 else 0);
    }
  }

  /** Validation: every refusal is an invalid parameter, and a request of an
      invalid shape is always refused. */
  lemma PrepRejects(t: Table, op: XferOp, local: DescList, remote: DescList, opt: Option<string>)
    requires ValidShape(local, remote) ==> Resolvable(t, remote)
    ensures var p := PrepOutcome(t, op, local, remote, opt);
      && (p.Rejected? ==> p.status == ErrInvalidParam)
      && (!ValidShape(local, remote) ==> p.Rejected?)
      && (p.Rejected? && ValidShape(local, remote) ==> SgPath(local, remote, opt))
  {
  }

  /** A single range always gives a single-range node over pair 0 and never a
      scatter-gather map, with or without "-sgl". */
  lemma PrepSingleRange(t: Table, op: XferOp, local: DescList, remote: DescList, opt: Option<string>)
    requires ValidShape(local, remote) && Resolvable(t, remote) && |remote.descs| == 1
    ensures var l, r := local.descs, remote.descs;
      PrepOutcome(t, op, local, remote, opt) ==
        Built(SingleNode, [Range1(IoTypeOf(op), Gid(t, r[0].devId), r[0].addr, l[0].len, l[0].addr)])
    ensures !SgPath(local, remote, opt)
  {
  }

  /** On the scatter-gather path the request is refused exactly when the map
      of n-1 entries does not fit in local[0]; otherwise one node carries it. */
  lemma PrepScatterGather(t: Table, op: XferOp, local: DescList, remote: DescList, opt: Option<string>)
    requires ValidShape(local, remote) && Resolvable(t, remote) && SgPath(local, remote, opt)
    ensures var p := PrepOutcome(t, op, local, remote, opt);
      && (p.Rejected? <==> MapSize(|remote.descs| - 1) > local.descs[0].len)
      && (p.Built? ==> p.kind == SingleNode && |p.params| == 1 && p.params[0].Multi?
                       && |p.params[0].ranges| == |remote.descs| - 1)
  {
  }

  /** A compound node gets one child per descriptor pair, less pair 0 when
      "-sgl" was given; it always has at least one child, and it is built only
      when the request has several ranges that cannot use one scatter-gather map. */
  lemma PrepCompoundChildren(t: Table, op: XferOp, local: DescList, remote: DescList, opt: Option<string>)
    requires ValidShape(local, remote) ==> Resolvable(t, remote)
    requires PrepOutcome(t, op, local, remote, opt).Built?
    requires PrepOutcome(t, op, local, remote, opt).kind == CompoundNode
    ensures var n := |remote.descs|;
      var ps := PrepOutcome(t, op, local, remote, opt).params;
      && n >= 2 && !SgPath(local, remote, opt)
      && |ps| == (if HasSglMem(opt) then n - 1 else n)
      && |ps| >= 1
      && forall k :: 0 <= k < |ps| ==>
           ps[k].Range1? && ps[k].gid == Gid(t, remote.descs[k + FirstDataPair(remote, opt)].devId)
  {
  }
}

=== FILE: device_table.dfy ===
/**
 * The device reference-count table of the backend (bdevs_): a map from device
 * id to the device's information and its reference count, changed by
 * bdevOpen/bdevClose, which registerMem/deregisterMem call.
 *
 * Each operation is given here as a pure step on the table; the engine's
 * methods are proved to perform exactly these steps. The GUSLI library's
 * answers (connect, disconnect, buffer (un)registration results and the device
 * information) are parameters, and each step lists the library calls it makes.
 */
module DeviceTable {
  import opened Types
  import opened StatusConv

  /** One table entry (bdevRefcountT). */
  datatype BdevRefcount = BdevRefcount(bi: BdevInfo, refCount: int)

  /** The table: one entry per device id. */
  type Table = map<DevId, BdevRefcount>

  /** The outcome of a table operation: the new table, the returned status and
      the library calls made, in order. */
  datatype Step = Step(table: Table, status: Status, calls: seq<LibCall>)

  /** A buffer handed to the library (gusli::io_buffer_t). */
  datatype IoBuffer = IoBuffer(ptr: nat, byteLen: nat)

  /** The memory registered by the framework (nixlBlobDesc). */
  datatype BlobDesc = BlobDesc(addr: nat, len: nat, devId: DevId)

  /** The backend metadata returned by registerMem (nixlGusliMemReq). */
  datatype MemReq = MemReq(devId: DevId, memType: MemType, ioBufs: seq<IoBuffer>)

  /** The outcome of registerMem: new table, status, the `out` metadata and the library calls. */
  datatype RegStep = RegStep(table: Table, status: Status, out: Option<MemReq>, calls: seq<LibCall>)

  /** Every entry in the table is held by at least one reference. */
  ghost predicate TableValid(t: Table)
  {
    forall d :: d in t ==> t[d].refCount >= 1
  }

  /** The number of references the table records for `d` (0 when absent). */
  function RefCount(t: Table, d: DevId): int
  {
    if d in t then t[d].refCount else 0
  }

  /** The native descriptor stored for an open device (getGidOfBDev). */
  function Gid(t: Table, d: DevId): int
    requires d in t
  {
    t[d].bi.bdevDescriptor
  }

  /** Entries other than `dev` are the same in both tables. */
  ghost predicate OthersUnchanged(t: Table, t': Table, dev: DevId)
  {
    (forall d :: d != dev ==> (d in t <==> d in t')) &&
    (forall d :: d != dev && d in t ==> t'[d] == t[d])
  }

  /** bdevOpen: a known device gains one reference; an unknown device is
      connected and inserted with one reference, unless the connect fails. */
  function Open(t: Table, dev: DevId, connect: ConnectRv, info: BdevInfo): (o: Step)
    ensures o.status == Success <==> dev in t || connect == COk
    ensures o.status != Success ==> o.table == t
  {
    if dev in t then
      Step(t[dev := t[dev].(refCount := t[dev].refCount + 1)], Success, [])
    else if connect != COk then
      Step(t, ConErrConv(connect), [Connect(dev)])
    else
      Step(t[dev := BdevRefcount(info, 1)], Success, [Connect(dev), GetInfo(dev)])
  }

  /** bdevClose: an unknown device is ignored; otherwise one reference is
      dropped, and dropping the last one disconnects the device and erases the
      entry; a failed disconnect puts the reference back and keeps the entry. */
  function Close(t: Table, dev: DevId, disconnect: ConnectRv): (c: Step)
    ensures c.calls == [] || c.calls == [Disconnect(dev)]
    ensures c.status == Success || (c.status == ConErrConv(disconnect) && c.calls == [Disconnect(dev)])
  {
    if dev !in t then
      Step(t, Success, [])
    else if t[dev].refCount - 1 > 0 then
      Step(t[dev := t[dev].(refCount := t[dev].refCount - 1)], Success, [])
    else if disconnect != COk then
      Step(t[dev := t[dev].(refCount := t[dev].refCount - 1 + 1)], ConErrConv(disconnect), [Disconnect(dev)])
    else
      Step(t - {dev}, Success, [Disconnect(dev)])
  }

  /** registerMem: only process memory and block-device memory are accepted;
      process memory opens its device and registers the buffer with the library,
      and a failed buffer registration closes the device again. */
  function Register(t: Table, mem: BlobDesc, memType: MemType, connect: ConnectRv,
                    info: BdevInfo, registerRv: ConnectRv, disconnect: ConnectRv): (r: RegStep)
    ensures r.status == Success <==> r.out.Some?
    ensures memType != DramSeg ==> r.table == t && r.calls == []
  {
    if memType != DramSeg && memType != BlkSeg then
      RegStep(t, ErrNotSupported, None, [])
    else
      var md := MemReq(mem.devId, memType, [IoBuffer(mem.addr, mem.len)]);
      if memType == BlkSeg then
        RegStep(t, Success, Some(md), [])
      else
        var o := Open(t, mem.devId, connect, info);
        if o.status != Success then
          RegStep(o.table, o.status, None, o.calls)
        else if registerRv != COk then
          var c := Close(o.table, mem.devId, disconnect);
          RegStep(c.table, ConErrConv(registerRv), None, o.calls + [BufsRegister(mem.devId)] + c.calls)
        else
          RegStep(o.table, Success, Some(md), o.calls + [BufsRegister(mem.devId)])
  }

  /** deregisterMem: a missing metadata object is an invalid parameter;
      block-device memory needs nothing; process memory unregisters its buffer
      and, if that succeeds, closes its device. */
  function Deregister(t: Table, md: Option<MemReq>, unregisterRv: ConnectRv, disconnect: ConnectRv): (d: Step)
    ensures md.None? ==> d.status == ErrInvalidParam
    ensures md.None? || md.value.memType == BlkSeg ==> d.table == t && d.calls == []
    ensures md.Some? && md.value.memType != BlkSeg ==> |d.calls| >= 1 && d.calls[0] == BufsUnregister(md.value.devId)
  {
    if md.None? then
      Step(t, ErrInvalidParam, [])
    else if md.value.memType == BlkSeg then
      Step(t, Success, [])
    else if unregisterRv != COk then
      Step(t, ConErrConv(unregisterRv), [BufsUnregister(md.value.devId)])
    else
      var c := Close(t, md.value.devId, disconnect);
      Step(c.table, c.status, [BufsUnregister(md.value.devId)] + c.calls)
  }

  // ---------------------------------------------------------------------------
  // Properties of the table operations

  /** bdevOpen: on success the device has exactly one more reference; on
      failure the table is unchanged and the status is not success; the library's
      connect is called exactly when the device was not yet in the table; no
      other entry changes. */
  lemma OpenCounts(t: Table, dev: DevId, connect: ConnectRv, info: BdevInfo)
    ensures var o := Open(t, dev, connect, info);
      && OthersUnchanged(t, o.table, dev)
      && (o.status == Success ==> dev in o.table && RefCount(o.table, dev) == RefCount(t, dev) + 1)
      && (o.status != Success ==> o.table == t && o.status == ConErrConv(connect))
      && (o.status == Success <==> dev in t || connect == COk)
      && (Connect(dev) in o.calls <==> dev !in t)
      && (dev !in t && connect == COk ==> o.table[dev] == BdevRefcount(info, 1))
  {
    var o := Open(t, dev, connect, info);
    if dev !in t && connect != COk {
      assert o.calls == [Connect(dev)];
    }
  }

  /** bdevClose: closing an unknown device succeeds and changes nothing; a
      successful close drops exactly one reference (erasing the entry at zero);
      a failed close leaves the table unchanged and reports the disconnect's
      error; the library's disconnect is called exactly when the last reference
      goes; no other entry changes. */
  lemma CloseCounts(t: Table, dev: DevId, disconnect: ConnectRv)
    requires TableValid(t)
    ensures var c := Close(t, dev, disconnect);
      && OthersUnchanged(t, c.table, dev)
      && (dev !in t ==> c == Step(t, Success, []))
      && (dev in t && c.status == Success ==> RefCount(c.table, dev) == RefCount(t, dev) - 1)
      && (dev in t && c.status == Success ==> (dev in c.table <==> t[dev].refCount > 1))
      && (c.status != Success ==> c.table == t && c.status == ConErrConv(disconnect))
      && (Disconnect(dev) in c.calls <==> dev in t && t[dev].refCount == 1)
  {
    var c := Close(t, dev, disconnect);
    if dev in t && t[dev].refCount == 1 {
      assert c.calls == [Disconnect(dev)];
      if disconnect != COk {
        assert t[dev].(refCount := t[dev].refCount - 1 + 1) == t[dev];
        assert c.table == t;
      }
    }
  }

  /** Every table operation keeps every entry held by at least one reference. */
  lemma OpenCloseKeepValid(t: Table, dev: DevId, connect: ConnectRv, info: BdevInfo, disconnect: ConnectRv)
    requires TableValid(t)
    ensures TableValid(Open(t, dev, connect, info).table)
    ensures TableValid(Close(t, dev, disconnect).table)
  {
    if dev in t && t[dev].refCount == 1 && disconnect != COk {
      assert t[dev].(refCount := t[dev].refCount - 1 + 1) == t[dev];
    }
  }

  /** Open and close never change the device information of an entry that
      stays in the table, so the descriptor getGidOfBDev resolves for a device
      is the one obtained when the device was connected. */
  lemma OpenCloseKeepInfo(t: Table, dev: DevId, connect: ConnectRv, info: BdevInfo, disconnect: ConnectRv)
    ensures var t' := Open(t, dev, connect, info).table;
      forall d :: d in t ==> d in t' && Gid(t', d) == Gid(t, d)
    ensures var t' := Close(t, dev, disconnect).table;
      forall d :: d in t && d in t' ==> Gid(t', d) == Gid(t, d)
  {
  }

  /** A successful open followed by a close restores the original table, when
      the device was already open or its disconnect succeeds. */
  lemma OpenCloseRoundTrip(t: Table, dev: DevId, connect: ConnectRv, info: BdevInfo, disconnect: ConnectRv)
    requires TableValid(t)
    requires Open(t, dev, connect, info).status == Success
    requires dev in t || disconnect == COk
    ensures var c := Close(Open(t, dev, connect, info).table, dev, disconnect);
      c.table == t && c.status == Success
  {
    var t1 := Open(t, dev, connect, info).table;
    if dev in t {
      assert t1[dev := t1[dev].(refCount := t1[dev].refCount - 1)] == t;
    } else {
      assert t1 - {dev} == t;
    }
  }

  /** After the last reference's disconnect fails the entry keeps one
      reference with no registration holding it, so a later balanced open/close
      pair drops back to that reference and never calls disconnect again. */
  lemma FailedDisconnectIsNotRetried(t: Table, dev: DevId, failed: ConnectRv,
                                     connect: ConnectRv, info: BdevInfo, disconnect: ConnectRv)
    requires dev in t && t[dev].refCount == 1 && failed != COk
    ensures var t1 := Close(t, dev, failed).table;
      && dev in t1 && t1[dev].refCount == 1
      && var t2 := Open(t1, dev, connect, info).table;
         var c := Close(t2, dev, disconnect);
         c.calls == [] && dev in c.table && c.table[dev].refCount == 1
  {
    var t1 := Close(t, dev, failed).table;
    assert t1[dev].refCount == 1;
  }

  /** registerMem: the metadata is produced exactly when it succeeds; any type
      other than process or block-device memory is refused as not supported
      without touching the table; block-device memory never touches the table. */
  lemma RegisterOutcome(t: Table, mem: BlobDesc, memType: MemType, connect: ConnectRv,
                        info: BdevInfo, registerRv: ConnectRv, disconnect: ConnectRv)
    ensures var r := Register(t, mem, memType, connect, info, registerRv, disconnect);
      && (r.status == Success <==> r.out.Some?)
      && (r.status == ErrNotSupported <==> memType != DramSeg && memType != BlkSeg)
      && (memType != DramSeg ==> r.table == t && r.calls == [])
      && (r.out.Some? ==> r.out.value == MemReq(mem.devId, memType, [IoBuffer(mem.addr, mem.len)]))
  {
  }

  /** registerMem keeps opens and closes balanced on its error path: a failed
      registration leaves the table as it was, provided the device was already
      open or the disconnect that undoes a fresh connect succeeds. */
  lemma RegisterFailureRestoresTable(t: Table, mem: BlobDesc, memType: MemType, connect: ConnectRv,
                                     info: BdevInfo, registerRv: ConnectRv, disconnect: ConnectRv)
    requires TableValid(t)
    requires Register(t, mem, memType, connect, info, registerRv, disconnect).status != Success
    requires mem.devId in t || disconnect == COk
    ensures Register(t, mem, memType, connect, info, registerRv, disconnect).table == t
  {
    if memType == DramSeg {
      var o := Open(t, mem.devId, connect, info);
      if o.status == Success && registerRv != COk {
        OpenCloseRoundTrip(t, mem.devId, connect, info, disconnect);
      }
    }
  }

  /** A successful registerMem gives process memory's device exactly one more
      reference and leaves every other entry (and, for block-device memory, the
      whole table) unchanged. */
  lemma RegisterSuccessAddsReference(t: Table, mem: BlobDesc, memType: MemType, connect: ConnectRv,
                                     info: BdevInfo, registerRv: ConnectRv, disconnect: ConnectRv)
    requires Register(t, mem, memType, connect, info, registerRv, disconnect).status == Success
    ensures var r := Register(t, mem, memType, connect, info, registerRv, disconnect);
      && OthersUnchanged(t, r.table, mem.devId)
      && (memType == DramSeg ==> RefCount(r.table, mem.devId) == RefCount(t, mem.devId) + 1)
      && (memType == BlkSeg ==> r.table == t)
  {
    if memType == DramSeg {
      OpenCounts(t, mem.devId, connect, info);
    }
  }

  /** deregisterMem: a null metadata object is an invalid parameter; a failed
      buffer unregistration leaves the table unchanged, so the registration's
      reference is not released; a successful one releases exactly one
      reference as bdevClose does. */
  lemma DeregisterOutcome(t: Table, md: Option<MemReq>, unregisterRv: ConnectRv, disconnect: ConnectRv)
    requires TableValid(t)
    ensures var s := Deregister(t, md, unregisterRv, disconnect);
      && (md.None? ==> s == Step(t, ErrInvalidParam, []))
      && (md.Some? && md.value.memType == BlkSeg ==> s == Step(t, Success, []))
      && (md.Some? && md.value.memType != BlkSeg && unregisterRv != COk ==>
            s.table == t && s.status == ConErrConv(unregisterRv) && s.status != Success)
      && (md.Some? && md.value.memType != BlkSeg && unregisterRv == COk ==>
            s.table == Close(t, md.value.devId, disconnect).table &&
            s.status == Close(t, md.value.devId, disconnect).status)
      && TableValid(s.table)
  {
    if md.Some? && md.value.memType != BlkSeg && unregisterRv == COk {
      OpenCloseKeepValid(t, md.value.devId, COk, BdevInfo(0, 0, 0, ""), disconnect);
    }
  }

  /** Registering process memory and deregistering the metadata it returned
      restores the table, when the device was already open or its final
      disconnect succeeds. */
  lemma RegisterDeregisterRoundTrip(t: Table, mem: BlobDesc, connect: ConnectRv, info: BdevInfo,
                                    registerRv: ConnectRv, disconnect: ConnectRv)
    requires TableValid(t)
    requires Register(t, mem, DramSeg, connect, info, registerRv, disconnect).status == Success
    requires mem.devId in t || disconnect == COk
    ensures var r := Register(t, mem, DramSeg, connect, info, registerRv, disconnect);
      var d := Deregister(r.table, r.out, COk, disconnect);
      d.table == t && d.status == Success
  {
    var r := Register(t, mem, DramSeg, connect, info, registerRv, disconnect);
    assert r.table == Open(t, mem.devId, connect, info).table;
    OpenCloseRoundTrip(t, mem.devId, connect, info, disconnect);
  }

  /** deregisterMem frees its metadata on every path, so a failed call cannot
      be repeated. When the buffer unregistration fails, the reference the
      registration took stays in the table with no metadata left to release it;
      when the unregistration succeeds but the final disconnect fails, the
      device keeps one reference in the same way. */
  lemma DeregisterFailureLeaksReference(t: Table, mem: BlobDesc, connect: ConnectRv, info: BdevInfo,
                                        registerRv: ConnectRv, disconnect: ConnectRv,
                                        unregisterRv: ConnectRv, finalDisconnect: ConnectRv)
    requires TableValid(t)
    requires Register(t, mem, DramSeg, connect, info, registerRv, disconnect).status == Success
    ensures var r := Register(t, mem, DramSeg, connect, info, registerRv, disconnect);
      var d := Deregister(r.table, r.out, unregisterRv, finalDisconnect);
      && (unregisterRv != COk ==>
            d.status != Success && RefCount(d.table, mem.devId) == RefCount(t, mem.devId) + 1)
      && (unregisterRv == COk && mem.devId !in t && finalDisconnect != COk ==>
            d.status != Success && RefCount(d.table, mem.devId) == 1)
  {
    var r := Register(t, mem, DramSeg, connect, info, registerRv, disconnect);
    RegisterSuccessAddsReference(t, mem, DramSeg, connect, info, registerRv, disconnect);
    if unregisterRv == COk && mem.devId !in t && finalDisconnect != COk {
      assert r.table == Open(t, mem.devId, connect, info).table;
      OpenCounts(t, mem.devId, connect, info);
      CloseCounts(r.table, mem.devId, finalDisconnect);
    }
  }
}

=== FILE: engine.dfy ===
/**
 * The GUSLI backend engine (nixlGusliEngine): its constant capabilities, the
 * device reference-count table it updates through bdevOpen/bdevClose, memory
 * registration, and prepXfer, which classifies a transfer and builds its node.
 *
 * The GUSLI library's answers are parameters of the methods that consult
 * them; `trace` records, in order, every device-table library call the
 * engine makes (connect, get_info, disconnect, buffer (un)registration).
 */
module Engine {
  import opened Types
  import opened StatusConv
  import opened SgMap
  import opened DeviceTable
  import opened Requests
  import opened Classifier

  /** The memory classes the backend accepts (__getSupportedGusliMems). */
  function SupportedMems(): seq<MemType>
  {
    [BlkSeg, DramSeg]
  }

  /** The advertised memory classes are exactly those registerMem does not
      refuse as not supported. */
  lemma SupportedMemsAreRegistrable(t: Table, mem: BlobDesc, memType: MemType, connect: ConnectRv,
                                    info: BdevInfo, registerRv: ConnectRv, disconnect: ConnectRv)
    ensures memType in SupportedMems() <==>
            Register(t, mem, memType, connect, info, registerRv, disconnect).status != ErrNotSupported
  {
  }

  class GusliEngine {
    var bdevs: Table
    ghost var trace: seq<LibCall>

    ghost predicate Valid()
      reads this
    {
      TableValid(bdevs)
    }

    /** An engine with no open device. */
    constructor ()
      ensures Valid() && bdevs == map[] && trace == []
    {
      bdevs := map[];
      trace := [];
    }

    function SupportsNotif(): bool { false }
    function SupportsRemote(): bool { false }
    function SupportsLocal(): bool { true }
    function SupportsProgTh(): bool { false }

    function GetSupportedMems(): seq<MemType> { SupportedMems() }

    function Connect(remoteAgent: string): Status { Success }
    function Disconnect(remoteAgent: string): Status { Success }

    /** The metadata loaded for local use is the registered metadata itself. */
    function LoadLocalMD(input: Option<MemReq>): (Status, Option<MemReq>) { (Success, input) }
    function UnloadMD(input: Option<MemReq>): Status { Success }

    /** getGidOfBDev: the native descriptor of a device that is already open. */
    function GetGidOfBDev(devId: DevId): (gid: int)
      reads this
      requires devId in bdevs
      ensures gid == Gid(bdevs, devId)
    {
      Gid(bdevs, devId)
    }

    /** bdevOpen: performs the table step Open, with the library answering
        `connect` to bdev_connect and `info` to bdev_get_info. */
    method BdevOpen(devId: DevId, connect: ConnectRv, info: BdevInfo) returns (st: Status)
      requires Valid()
      modifies this
      ensures Valid()
      ensures var o := Open(old(bdevs), devId, connect, info);
        bdevs == o.table && st == o.status && trace == old(trace) + o.calls
    {
      if devId in bdevs {
        var v := bdevs[devId];
        bdevs := bdevs[devId := v.(refCount := v.refCount + 1)];
      } else {
        trace := trace + [LibCall.Connect(devId)];
        if connect != COk {
          return ConErrConv(connect);
        }
        trace := trace + [GetInfo(devId)];
        bdevs := bdevs[devId := BdevRefcount(info, 1)];
      }
      st := Success;
    }

    /** bdevClose: performs the table step Close, with the library answering
        `disconnect` to bdev_disconnect. */
    method BdevClose(devId: DevId, disconnect: ConnectRv) returns (st: Status)
      requires Valid()
      modifies this
      ensures Valid()
      ensures var c := Close(old(bdevs), devId, disconnect);
        bdevs == c.table && st == c.status && trace == old(trace) + c.calls
    {
      if devId !in bdevs {
        return Success;
      }
      var v := bdevs[devId];
      v := v.(refCount := v.refCount - 1);
      bdevs := bdevs[devId := v];
      if v.refCount > 0 {
        return Success;
      }
      trace := trace + [LibCall.Disconnect(devId)];
      if disconnect != COk {
        bdevs := bdevs[devId := v.(refCount := v.refCount + 1)];
        return ConErrConv(disconnect);
      }
      bdevs := bdevs - {devId};
      st := Success;
    }

    /** registerMem: performs the table step Register, with the library
        answering `registerRv` to bdev_bufs_register. */
    method RegisterMem(mem: BlobDesc, memType: MemType, connect: ConnectRv, info: BdevInfo,
                       registerRv: ConnectRv, disconnect: ConnectRv) returns (st: Status, out: Option<MemReq>)
      requires Valid()
      modifies this
      ensures Valid()
      ensures var r := Register(old(bdevs), mem, memType, connect, info, registerRv, disconnect);
        bdevs == r.table && st == r.status && out == r.out && trace == old(trace) + r.calls
    {
      out := None;
      if memType != DramSeg && memType != BlkSeg {
        return ErrNotSupported, None;
      }
      var md := MemReq(mem.devId, memType, [IoBuffer(mem.addr, mem.len)]);
      if memType != BlkSeg {
        var openRv := BdevOpen(md.devId, connect, info);
        if openRv != Success {
          return openRv, None;
        }
        trace := trace + [BufsRegister(md.devId)];
        if registerRv != COk {
          var _ := BdevClose(md.devId, disconnect);
          return ConErrConv(registerRv), None;
        }
      }
      return Success, Some(md);
    }

    /** deregisterMem: performs the table step Deregister, with the library
        answering `unregisterRv` to bdev_bufs_unregist. */
    method DeregisterMem(md: Option<MemReq>, unregisterRv: ConnectRv, disconnect: ConnectRv) returns (st: Status)
      requires Valid()
      modifies this
      ensures Valid()
      ensures var d := Deregister(old(bdevs), md, unregisterRv, disconnect);
        bdevs == d.table && st == d.status && trace == old(trace) + d.calls
    {
      if md.None? {
        return ErrInvalidParam;
      }
      if md.value.memType == BlkSeg {
        return Success;
      }
      trace := trace + [BufsUnregister(md.value.devId)];
      if unregisterRv != COk {
        return ConErrConv(unregisterRv);
      }
      st := BdevClose(md.value.devId, disconnect);
    }

    /** prepXfer: builds the node PrepOutcome describes, or no node when it
        refuses the request. `sgMem` is the memory behind local[0], which only
        the scatter-gather strategy writes. */
    method PrepXfer(op: XferOp, local: DescList, remote: DescList, remoteAgent: string,
                    opt: Option<string>, sgMem: MultiMap) returns (st: Status, handle: Option<ReqHandle>)
      requires ValidShape(local, remote) ==> Resolvable(bdevs, remote)
      requires sgMem.Valid() && (|local.descs| > 0 ==> sgMem.regionLen == local.descs[0].len)
      modifies sgMem, sgMem.entries
      ensures sgMem.Valid()
      ensures st == Success <==> handle.Some?
      ensures var p := PrepOutcome(bdevs, op, local, remote, opt);
        && (p.Rejected? ==> st == p.status)
        && (p.Built? && p.kind == SingleNode ==>
              handle.Some? && handle.value.SingleH? && fresh(handle.value.single) &&
              handle.value.single.submits == 0 && [handle.value.single.params] == p.params &&
              handle.value.single.hasCallback && handle.value.single.op == IoTypeOf(op))
        && (p.Built? && p.kind == CompoundNode ==>
              handle.Some? && handle.value.CompoundH? && fresh(handle.value.compound) &&
              handle.value.compound.Valid() && ChildParams(handle.value.compound) == p.params &&
              handle.value.compound.op == IoTypeOf(op) && handle.value.compound.submitted == [] &&
              forall c :: c in handle.value.compound.children ==>
                fresh(c) && c.submits == 0 && c.hasCallback && c.op == IoTypeOf(op))
      ensures SgPath(local, remote, opt) ==>
                && sgMem.nEntries == |remote.descs| - 1
                && sgMem.overrun == (old(sgMem.overrun) || local.descs[0].len < CountBytes)
                && (st == Success ==> sgMem.entries[..|remote.descs| - 1] == SgEntries(local.descs, remote.descs))
                && (st == Success ==> sgMem.entries[|remote.descs| - 1..] == old(sgMem.entries[|remote.descs| - 1..]))
                && (st != Success ==> sgMem.entries[..] == old(sgMem.entries[..]))
      ensures !SgPath(local, remote, opt) ==>
                && sgMem.nEntries == old(sgMem.nEntries) && sgMem.overrun == old(sgMem.overrun)
                && sgMem.entries[..] == old(sgMem.entries[..])
    {
      if local.memType != DramSeg {
        return ErrInvalidParam, None;
      }
      if remote.memType != BlkSeg {
        return ErrInvalidParam, None;
      }
      if |local.descs| != |remote.descs| {
        return ErrInvalidParam, None;
      }
      var l, r := local.descs, remote.descs;
      var gid := GetGidOfBDev(r[0].devId);
      var nRanges := |r|;
      var isSingleRangeIo := nRanges == 1;
      var hasSglMem := HasSglMem(opt);
      var entireIo1Bdev := IsEntireIOto1Bdev(r);
      var canUseMultiRangeOptimization := entireIo1Bdev && hasSglMem;
      if isSingleRangeIo {
        var req := new SingleReq(op);
        req.Set1Buf(gid, l[0], r[0]);
        handle := Some(SingleH(req));
      } else if canUseMultiRangeOptimization {
        var req := new SingleReq(op);
        var rv := req.SetBufs(gid, l, r, sgMem);
        if rv != Success {
          return rv, None;
        }
        handle := Some(SingleH(req));
      } else {
        var req := BuildCompound(op, l, r, if hasSglMem then 1 else 0);
        handle := Some(CompoundH(req));
      }
      st := Success;
    }

    /** The compound branch of prepXfer: a compound node with one child per
        descriptor pair from `from` on, each on its own remote device. */
    method BuildCompound(op: XferOp, l: seq<MetaDesc>, r: seq<MetaDesc>, from: nat) returns (req: CompoundReq)
      requires from <= |r| <= |l|
      requires forall i :: 0 <= i < |r| ==> r[i].devId in bdevs
      ensures fresh(req) && req.Valid() && req.op == IoTypeOf(op) && req.submitted == []
      ensures ChildParams(req) == RangeParams(bdevs, IoTypeOf(op), l, r, from)
      ensures forall c :: c in req.children ==> fresh(c) && c.submits == 0 && c.hasCallback && c.op == IoTypeOf(op)
    {
      req := new CompoundReq(op, |r|);
      ghost var want := RangeParams(bdevs, IoTypeOf(op), l, r, from);
      var i := from;
      while i < |r|
        invariant from <= i <= |r|
        invariant fresh(req) && req.Valid() && req.op == IoTypeOf(op) && req.submitted == []
        invariant |req.children| == i - from
        invariant forall k :: 0 <= k < |req.children| ==> req.children[k].params == want[k]
        invariant forall c :: c in req.children ==> fresh(c) && c.submits == 0 && c.hasCallback && c.op == IoTypeOf(op)
      {
        ghost var before := req.children;
        req.AddSubIO(op, GetGidOfBDev(r[i].devId), l[i], r[i]);
        assert req.children == before + [req.children[|before|]];
        i := i + 1;
      }
      assert ChildParams(req) == want;
    }

    /** postXfer: starts the node behind `handle` (its exec) and reports in-progress. */
    method PostXfer(handle: ReqHandle) returns (st: Status)
      requires handle.CompoundH? ==> handle.compound.Valid()
      modifies Footprint(handle)
      ensures st == InProg
      ensures handle.SingleH? ==>
                var s := handle.single;
                s.pollableAsyncRV == EInTransfer && s.submits == old(s.submits) + 1 && s.params == old(s.params)
      ensures handle.CompoundH? ==>
                var c := handle.compound;
                && c.Valid() && c.children == old(c.children) && c.pollableAsyncRV == EInTransfer
                && c.submitted == old(c.submitted) + c.children
                && forall i :: 0 <= i < |c.children| ==>
                     && c.children[i].pollableAsyncRV == EInTransfer
                     && c.children[i].submits == old(c.children[i].submits) + 1
                     && c.children[i].params == old(c.children[i].params)
    {
      match handle
      case SingleH(s) => st := s.Exec();
      case CompoundH(c) => st := c.Exec();
    }

    /** checkXfer: polls the node behind `handle`; `natives` holds the code each
        of its ios reports (one for a single node, one per child for a compound). */
    method CheckXfer(handle: ReqHandle, natives: seq<IoError>) returns (st: Status)
      requires handle.SingleH? ==> |natives| == 1
      requires handle.CompoundH? ==> handle.compound.Valid() && |natives| == |handle.compound.children|
      modifies Footprint(handle)
      ensures handle.SingleH? ==>
                var s := handle.single;
                && s.pollableAsyncRV == s.Observed(old(s.pollableAsyncRV), natives[0])
                && st == CompStatus(s.pollableAsyncRV)
                && s.params == old(s.params) && s.submits == old(s.submits)
      ensures handle.CompoundH? ==>
                var c := handle.compound;
                var codes := old(ObservedCodes(c.children, natives));
                && c.Valid() && c.children == old(c.children) && c.submitted == old(c.submitted)
                && (c.pollableAsyncRV, st) == CompoundPoll(old(c.pollableAsyncRV), codes)
                && (forall i :: 0 <= i < |c.children| ==>
                      c.children[i].params == old(c.children[i].params) &&
                      c.children[i].submits == old(c.children[i].submits))
                && (IsTerminal(old(c.pollableAsyncRV)) ==>
                      forall i :: 0 <= i < |c.children| ==>
                        c.children[i].pollableAsyncRV == old(c.children[i].pollableAsyncRV))
                && (!IsTerminal(old(c.pollableAsyncRV)) ==>
                      forall i :: 0 <= i < |c.children| ==>
                        c.children[i].pollableAsyncRV ==
                          if i <= FirstPending(codes) then codes[i] else old(c.children[i].pollableAsyncRV))
    {
      match handle
      case SingleH(s) => st := s.PollStatus(natives[0]);
      case CompoundH(c) => st := c.PollStatus(natives);
    }

    /** releaseReqH: frees the node; it always succeeds. */
    function ReleaseReqH(handle: ReqHandle): (st: Status)
      ensures st == Success
    {
      Success
    }
  }

  /** The objects a handle's node consists of: the node itself and, for a
      compound node, its children. */
  ghost function Footprint(handle: ReqHandle): set<object>
    reads if handle.CompoundH? then {handle.compound} else {}
  {
    match handle
    case SingleH(s) => {s as object}
    case CompoundH(c) => (set x | x in c.children :: x as object) + {c}
  }

  /** The engine's fixed behaviour: local transfers only, no notifications and
      no progress thread; agent connect/disconnect and metadata unload always
      succeed; loading local metadata hands back its input. */
  lemma FixedEngineBehaviour(e: GusliEngine, agent: string, md: Option<MemReq>)
    ensures e.SupportsLocal() && !e.SupportsRemote() && !e.SupportsNotif() && !e.SupportsProgTh()
    ensures e.Connect(agent) == Success && e.Disconnect(agent) == Success && e.UnloadMD(md) == Success
    ensures e.LoadLocalMD(md) == (Success, md)
    ensures e.GetSupportedMems() == [BlkSeg, DramSeg]
  {
  }
}

=== FILE: requests.dfy ===
/**
 * The backend's request handles: a single-device node wrapping one GUSLI io
 * (nixlGusliBackendReqHSingleBdev) and a compound node owning one single node
 * per sub-io (nixlGusliBackendReqHCompound), with the completion aggregation
 * rule of the compound node.
 *
 * The GUSLI io itself is outside the model: what its completion reports is an
 * argument of the operation that observes it.
 */
module Requests {
  import opened Types
  import opened StatusConv
  import opened SgMap

  /** What a node's GUSLI io is set up to transfer (gusli::io_request params). */
  datatype IoParams =
    | NoRange
    | Range1(op: IoType, gid: int, lba: nat, len: nat, ptr: nat)
    | Multi(op: IoType, gid: int, ranges: seq<IoMap>)

  // ---------------------------------------------------------------------------
  // Completion aggregation of a compound node

  /** The code of the first child, in index order, that did not succeed, or
      E_OK when every child succeeded. */
  function FirstFailure(codes: seq<IoError>): (r: IoError)
    ensures r == EOk || r in codes
    ensures r == EOk <==> forall i :: 0 <= i < |codes| ==> codes[i] == EOk
  {
    if |codes| == 0 then EOk
    else if codes[0] != EOk then codes[0]
    else FirstFailure(codes[1..])
  }

  /** The compound status once its children report `codes`: in transfer while
      any child is, otherwise the first failure in index order, else success. */
  function Aggregate(codes: seq<IoError>): (a: IoError)
    ensures a == EOk || a in codes
    ensures a == EInTransfer <==> EInTransfer in codes
    ensures !IsTerminal(a) <==> EInTransfer in codes
    ensures a == EOk <==> forall i :: 0 <= i < |codes| ==> codes[i] == EOk
  {
    if EInTransfer in codes then EInTransfer else FirstFailure(codes)
  }

  /** Failure propagation: once no child is in transfer, the first child (in
      index order) that did not succeed decides the aggregate, whatever the
      children after it report. */
  lemma {:induction false} FirstFailureWins(codes: seq<IoError>, k: nat)
    requires EInTransfer !in codes
    requires k < |codes| && codes[k] != EOk
    requires forall j :: 0 <= j < k ==> codes[j] == EOk
    ensures Aggregate(codes) == codes[k]
  {
    if k > 0 {
      assert codes[0] == EOk;
      assert EInTransfer !in codes[1..] by {
        forall j | 0 <= j < |codes| - 1 ensures codes[1..][j] != EInTransfer {
          assert codes[1..][j] == codes[j + 1];
        }
      }
      FirstFailureWins(codes[1..], k - 1);
    }
  }

  /** The index of the first child still in transfer, or the number of
      children when none is. */
  function FirstPending(codes: seq<IoError>): (j: nat)
    ensures j <= |codes|
    ensures forall k :: 0 <= k < j ==> codes[k] != EInTransfer
    ensures j < |codes| ==> codes[j] == EInTransfer
  {
    if |codes| == 0 then 0
    else if codes[0] == EInTransfer then 0
    else 1 + FirstPending(codes[1..])
  }

  /** A child in transfer after children that are not is the first pending one. */
  lemma FirstPendingAt(codes: seq<IoError>, i: nat)
    requires i < |codes| && codes[i] == EInTransfer
    requires forall k :: 0 <= k < i ==> codes[k] != EInTransfer
    ensures FirstPending(codes) == i
  {
  }

  /** The compound poll as a step on (status, children's codes): a terminal
      status is returned as it is, otherwise the aggregate is adopted. */
  function CompoundPoll(rv: IoError, codes: seq<IoError>): (r: (IoError, Status))
    ensures r.1 == CompStatus(r.0)
    ensures IsTerminal(rv) ==> r.0 == rv
    ensures !IsTerminal(rv) ==> (r.1 == InProg <==> EInTransfer in codes)
  {
    if IsTerminal(rv) then (rv, CompStatus(rv))
    else var a := Aggregate(codes); (a, CompStatus(a))
  }

  /** Compound completion is idempotent: after a poll that reports a terminal
      status, every later poll reports the same status and keeps the same code,
      whatever the children report then. */
  lemma CompoundPollIdempotent(rv: IoError, codes: seq<IoError>, later: seq<IoError>)
    requires CompoundPoll(rv, codes).1 != InProg
    ensures CompoundPoll(CompoundPoll(rv, codes).0, later) == CompoundPoll(rv, codes)
  {
  }

  // ---------------------------------------------------------------------------
  // Single-device node

  class SingleReq {
    const op: IoType
    const hasCallback: bool
    var pollableAsyncRV: IoError
    var params: IoParams
    /** How many times this node's io was submitted to the library. */
    ghost var submits: nat

    /** A node for transfer direction `xop`; it registers its completion
        callback with the io, so completions are delivered by that callback. */
    constructor (xop: XferOp)
      ensures op == IoTypeOf(xop) && hasCallback
      ensures params == NoRange && submits == 0
    {
      op := IoTypeOf(xop);
      hasCallback := true;
      params := NoRange;
      submits := 0;
    }

    /** set1Buf: the io transfers one range: `local.len` bytes at `local.addr`
        to or from byte offset `remote.addr` of device `gid`. */
    method Set1Buf(gid: int, local: MetaDesc, remote: MetaDesc)
      modifies this
      ensures params == Range1(op, gid, remote.addr, local.len, local.addr)
      ensures pollableAsyncRV == old(pollableAsyncRV) && submits == old(submits)
    {
      params := Range1(op, gid, remote.addr, local.len, local.addr);
    }

    /** setBufs: writes the scatter-gather map for pairs 1..n-1 into the
        memory of local[0]. The entry count is always written; the entries are
        written, and the io set up over them, only if the whole map fits in
        local[0].len bytes, so no entry is ever written past the region; the
        count itself lands past a region shorter than the count field. */
    method SetBufs(gid: int, local: seq<MetaDesc>, remote: seq<MetaDesc>, mio: MultiMap) returns (st: Status)
      requires 1 <= |remote| <= |local|
      requires mio.Valid() && mio.regionLen == local[0].len
      modifies this, mio, mio.entries
      ensures mio.Valid() && mio.nEntries == |remote| - 1
      ensures mio.overrun == (old(mio.overrun) || local[0].len < CountBytes)
      ensures st == Success || st == ErrInvalidParam
      ensures st == Success <==> MapSize(|remote| - 1) <= local[0].len
      ensures st == ErrInvalidParam ==> mio.entries[..] == old(mio.entries[..]) && params == old(params)
      ensures st == Success ==>
                && |remote| - 1 <= mio.entries.Length
                && mio.entries[..|remote| - 1] == SgEntries(local, remote)
                && mio.entries[|remote| - 1..] == old(mio.entries[|remote| - 1..])
                && params == Multi(op, gid, SgEntries(local, remote))
      ensures pollableAsyncRV == old(pollableAsyncRV) && submits == old(submits)
    {
      var nRanges := |remote|;
      mio.nEntries := nRanges - 1;
      mio.overrun := mio.overrun || mio.regionLen < CountBytes;
      if MapSize(nRanges - 1) > mio.regionLen {
        return ErrInvalidParam;
      }
      FitsIffWithinCapacity(nRanges - 1, mio.regionLen);
      ghost var before := mio.entries[..];
      for i := 1 to nRanges
        modifies mio.entries
        invariant mio.entries.Length == |before|
        invariant forall k :: 0 <= k < i - 1 ==>
                    mio.entries[k] == IoMap(local[k + 1].addr, local[k + 1].len, remote[k + 1].addr)
        invariant forall k :: i - 1 <= k < mio.entries.Length ==> mio.entries[k] == before[k]
      {
        mio.entries[i - 1] := IoMap(local[i].addr, local[i].len, remote[i].addr);
      }
      params := Multi(op, gid, mio.entries[..nRanges - 1]);
      st := Success;
    }

    /** exec: marks the node in transfer, submits its io once and reports
        in-progress without waiting. */
    method Exec() returns (st: Status)
      modifies this
      ensures st == InProg && pollableAsyncRV == EInTransfer
      ensures params == old(params) && submits == old(submits) + 1
    {
      pollableAsyncRV := EInTransfer;
      submits := submits + 1;
      st := InProg;
    }

    /** completionCallback: the io's completion code lands in the node. */
    method CompletionCallback(native: IoError)
      modifies this
      ensures pollableAsyncRV == native
      ensures params == old(params) && submits == old(submits)
    {
      pollableAsyncRV := native;
    }

    /** pollStatus: a node without a completion callback first reads the io's
        current code (`native`); the result is that code's status. */
    method PollStatus(native: IoError) returns (st: Status)
      modifies this
      ensures pollableAsyncRV == Observed(old(pollableAsyncRV), native)
      ensures st == CompStatus(pollableAsyncRV)
      ensures params == old(params) && submits == old(submits)
    {
      if !hasCallback {
        pollableAsyncRV := native;
      }
      st := CompStatus(pollableAsyncRV);
    }

    /** The code a poll sees: the callback-written code, or the io's own code
        when no callback is registered. */
    function Observed(current: IoError, native: IoError): IoError
      reads this
    {
      if hasCallback then current else native
    }
  }

  /** The codes the children of a compound node show when polled with the
      io codes `natives`. */
  ghost function ObservedCodes(children: seq<SingleReq>, natives: seq<IoError>): (codes: seq<IoError>)
    requires |natives| == |children|
    reads set c | c in children
    ensures |codes| == |children|
    ensures forall i :: 0 <= i < |children| ==>
              codes[i] == children[i].Observed(children[i].pollableAsyncRV, natives[i])
  {
    seq(|children|, i reads set c | c in children requires 0 <= i < |children| =>
      children[i].Observed(children[i].pollableAsyncRV, natives[i]))
  }

  // ---------------------------------------------------------------------------
  // Compound node

  class CompoundReq {
    const op: IoType
    var pollableAsyncRV: IoError
    var children: seq<SingleReq>
    /** The children this node has submitted, in submission order. */
    ghost var submitted: seq<SingleReq>

    /** The node owns its children, one object per sub-io. */
    ghost predicate Valid()
      reads this
    {
      forall i, j :: 0 <= i < j < |children| ==> children[i] != children[j]
    }

    /** A compound node for `xop` with no children yet (space for `nSubIOs` is reserved). */
    constructor (xop: XferOp, nSubIOs: nat)
      ensures Valid() && op == IoTypeOf(xop) && children == [] && submitted == []
    {
      op := IoTypeOf(xop);
      children := [];
      submitted := [];
    }

    /** addSubIO: appends a new child transferring one range. */
    method AddSubIO(xop: XferOp, gid: int, local: MetaDesc, remote: MetaDesc)
      requires Valid()
      modifies this
      ensures Valid() && pollableAsyncRV == old(pollableAsyncRV) && submitted == old(submitted)
      ensures |children| == |old(children)| + 1 && children[..|old(children)|] == old(children)
      ensures var sub := children[|old(children)|];
        && fresh(sub) && sub.op == IoTypeOf(xop) && sub.hasCallback && sub.submits == 0
        && sub.params == Range1(IoTypeOf(xop), gid, remote.addr, local.len, local.addr)
    {
      var sub := new SingleReq(xop);
      sub.Set1Buf(gid, local, remote);
      children := children + [sub];
    }

    /** exec: marks the node in transfer and submits every child once, in
        index order. */
    method Exec() returns (st: Status)
      requires Valid()
      modifies this, set c | c in children
      ensures Valid() && children == old(children)
      ensures st == InProg && pollableAsyncRV == EInTransfer
      ensures submitted == old(submitted) + children
      ensures forall i :: 0 <= i < |children| ==>
                && children[i].pollableAsyncRV == EInTransfer
                && children[i].submits == old(children[i].submits) + 1
                && children[i].params == old(children[i].params)
    {
      pollableAsyncRV := EInTransfer;
      for i := 0 to |children|
        invariant children == old(children) && pollableAsyncRV == EInTransfer
        invariant submitted == old(submitted) + children[..i]
        invariant forall k :: 0 <= k < i ==>
                    && children[k].pollableAsyncRV == EInTransfer
                    && children[k].submits == old(children[k].submits) + 1
                    && children[k].params == old(children[k].params)
        invariant forall k :: i <= k < |children| ==>
                    && children[k].submits == old(children[k].submits)
                    && children[k].params == old(children[k].params)
      {
        var _ := children[i].Exec();
        submitted := submitted + [children[i]];
      }
      st := InProg;
    }

    /** pollStatus: a terminal status is returned without polling any child.
        Otherwise the children are polled in order; while one is still in
        transfer the node reports in-progress; once all are done the node takes
        the code of the first child that did not succeed, else E_OK. This is
        the step CompoundPoll on the children's observed codes. */
    method PollStatus(natives: seq<IoError>) returns (st: Status)
      requires Valid() && |natives| == |children|
      modifies this, set c | c in children
      ensures Valid() && children == old(children) && submitted == old(submitted)
      ensures (pollableAsyncRV, st) == CompoundPoll(old(pollableAsyncRV), old(ObservedCodes(children, natives)))
      ensures forall i :: 0 <= i < |children| ==>
                children[i].params == old(children[i].params) && children[i].submits == old(children[i].submits)
      ensures IsTerminal(old(pollableAsyncRV)) ==>
                forall i :: 0 <= i < |children| ==> children[i].pollableAsyncRV == old(children[i].pollableAsyncRV)
      ensures !IsTerminal(old(pollableAsyncRV)) ==>
                var codes := old(ObservedCodes(children, natives));
                forall i :: 0 <= i < |children| ==>
                  children[i].pollableAsyncRV ==
                    if i <= FirstPending(codes) then codes[i] else old(children[i].pollableAsyncRV)
    {
      if IsTerminal(pollableAsyncRV) {
        return CompStatus(pollableAsyncRV);
      }
      ghost var codes := ObservedCodes(children, natives);
      var pending := PollUntilPending(natives);
      if pending {
        return InProg;
      }
      var failed := FirstFailedChild(natives, codes);
      if failed < |children| {
        pollableAsyncRV := children[failed].pollableAsyncRV;
        FirstFailureWins(codes, failed);
        return CompStatus(pollableAsyncRV);
      }
      pollableAsyncRV := EOk;
      st := CompStatus(pollableAsyncRV);
    }

    /** The first pass of pollStatus: polls the children in order and stops at
        the first one still in transfer; the polled children show their
        observed codes, the rest are untouched. */
    method PollUntilPending(natives: seq<IoError>) returns (pending: bool)
      requires Valid() && |natives| == |children|
      modifies set c | c in children
      ensures var codes := old(ObservedCodes(children, natives));
        && (pending <==> EInTransfer in codes)
        && forall i :: 0 <= i < |children| ==>
             && children[i].pollableAsyncRV ==
                  (if i <= FirstPending(codes) then codes[i] else old(children[i].pollableAsyncRV))
             && children[i].params == old(children[i].params)
             && children[i].submits == old(children[i].submits)
    {
      ghost var codes := ObservedCodes(children, natives);
      for i := 0 to |children|
        invariant forall k :: 0 <= k < i ==> children[k].pollableAsyncRV == codes[k] && codes[k] != EInTransfer
        invariant forall k :: i <= k < |children| ==> children[k].pollableAsyncRV == old(children[k].pollableAsyncRV)
        invariant forall k :: 0 <= k < |children| ==>
                    children[k].params == old(children[k].params) && children[k].submits == old(children[k].submits)
      {
        var s := children[i].PollStatus(natives[i]);
        if s == InProg {
          FirstPendingAt(codes, i);
          return true;
        }
      }
      return false;
    }

    /** The second pass of pollStatus, once no child is in transfer: polls the
        children in order and gives the index of the first one that did not
        succeed, or the number of children when all succeeded. */
    method FirstFailedChild(natives: seq<IoError>, ghost codes: seq<IoError>) returns (failed: nat)
      requires Valid() && |natives| == |children| == |codes| && EInTransfer !in codes
      requires forall k :: 0 <= k < |children| ==> children[k].hasCallback || natives[k] == codes[k]
      requires forall k :: 0 <= k < |children| ==> children[k].pollableAsyncRV == codes[k]
      modifies set c | c in children
      ensures failed <= |children|
      ensures forall k :: 0 <= k < failed ==> codes[k] == EOk
      ensures failed < |children| ==> codes[failed] != EOk
      ensures forall k :: 0 <= k < |children| ==>
                && children[k].pollableAsyncRV == codes[k]
                && children[k].params == old(children[k].params)
                && children[k].submits == old(children[k].submits)
    {
      for i := 0 to |children|
        invariant forall k :: 0 <= k < |children| ==> children[k].pollableAsyncRV == codes[k]
        invariant forall k :: 0 <= k < i ==> codes[k] == EOk
        invariant forall k :: 0 <= k < |children| ==>
                    children[k].params == old(children[k].params) && children[k].submits == old(children[k].submits)
      {
        var s := children[i].PollStatus(natives[i]);
        if s != Success {
          return i;
        }
      }
      return |children|;
    }
  }

  /** The io parameters of a compound node's children, in order. */
  ghost function ChildParams(c: CompoundReq): seq<IoParams>
    reads c, set x | x in c.children
  {
    seq(|c.children|, i reads c, set x | x in c.children requires 0 <= i < |c.children| => c.children[i].params)
  }

  /** A request handle returned by prepXfer: one of the two node kinds. */
  datatype ReqHandle = SingleH(single: SingleReq) | CompoundH(compound: CompoundReq)
}

=== FILE: sg_map.dfy ===
/**
 * The scatter-gather map (gusli::io_multi_map_t) that the single-device
 * multi-range strategy writes into the memory of the first local descriptor:
 * a header holding the entry count, followed by fixed-size entries
 * {ptr, byte length, device byte offset}.
 */
module SgMap {
  import opened Types

  /** Bytes taken by the header in front of the entries (the 32-bit entry count,
      padded to the 8-byte alignment of the entries). */
  const HeaderBytes: nat := 8

  /** Bytes taken by the entry count at the start of the header (a 32-bit count). */
  const CountBytes: nat := 4

  /** Bytes taken by one entry: a pointer, a length and a device offset, 8 bytes each. */
  const EntryBytes: nat := 24

  /** One entry of the map (gusli::io_map_t). */
  datatype IoMap = IoMap(ptr: nat, byteLen: nat, offsetLba: nat)

  /** my_size(): the bytes a map with `nEntries` entries occupies. */
  function MapSize(nEntries: nat): (size: nat)
    ensures size >= HeaderBytes
    ensures nEntries > 0 ==> size >= HeaderBytes + EntryBytes
  {
    HeaderBytes + nEntries * EntryBytes
  }

  /** The number of whole entry slots that lie inside a region of `regionLen` bytes. */
  function SlotCapacity(regionLen: nat): nat
  {
    if regionLen < HeaderBytes then 0 else (regionLen - HeaderBytes) / EntryBytes
  }

  /** The size check is exact: a map fits in the region if and only if its
      entries fit in the region's slots (and the header fits). */
  lemma {:induction false} FitsIffWithinCapacity(nEntries: nat, regionLen: nat)
    ensures MapSize(nEntries) <= regionLen <==>
            (HeaderBytes <= regionLen && nEntries <= SlotCapacity(regionLen))
  {
    if HeaderBytes <= regionLen {
      var room := regionLen - HeaderBytes;
      var cap := room / EntryBytes;
      assert cap * EntryBytes <= room < (cap + 1) * EntryBytes;
      if nEntries <= cap {
        assert nEntries * EntryBytes <= cap * EntryBytes;
      } else {
        assert nEntries * EntryBytes >= (cap + 1) * EntryBytes;
      }
    }
  }

  /** Whenever a whole map fits in a region, so does its entry count: only a
      map that is refused can have its count stored past the region. */
  lemma CountFitsWhenMapFits(nEntries: nat, regionLen: nat)
    requires MapSize(nEntries) <= regionLen
    ensures CountBytes <= regionLen
  {
  }

  /** The entries built from descriptor pairs 1..n-1; pair 0 is the map's own buffer. */
  function SgEntries(local: seq<MetaDesc>, remote: seq<MetaDesc>): (es: seq<IoMap>)
    requires 1 <= |remote| <= |local|
    ensures |es| == |remote| - 1
    ensures forall k :: 0 <= k < |es| ==>
              es[k].ptr == local[k + 1].addr && es[k].byteLen == local[k + 1].len &&
              es[k].offsetLba == remote[k + 1].addr
  {
    seq(|remote| - 1, k requires 0 <= k < |remote| - 1 =>
      IoMap(local[k + 1].addr, local[k + 1].len, remote[k + 1].addr))
  }

  /**
   * The caller's memory behind the first local descriptor, seen as a map: the
   * header's entry count and the entry slots that physically fit in the
   * region's `regionLen` bytes. `overrun` records whether the entry count
   * was ever stored into a region too short to hold it.
   */
  class MultiMap {
    var nEntries: int
    ghost var overrun: bool
    const regionLen: nat
    const entries: array<IoMap>

    ghost predicate Valid()
      reads this
    {
      entries.Length == SlotCapacity(regionLen)
    }

    constructor (len: nat)
      ensures Valid() && regionLen == len && fresh(entries) && !overrun
    {
      regionLen := len;
      overrun := false;
      entries := new IoMap[SlotCapacity(len)];
    }
  }
}

=== FILE: status_conv.dfy ===
/**
 * The two status translations of the backend: GUSLI connect results to NIXL
 * statuses (conErrConv) and a node's completion code to the NIXL status
 * reported by polling (getCompStatus).
 */
module StatusConv {
  import opened Types

  /** conErrConv: total, success exactly for C_OK, and never an in-progress or
      not-supported status, so callers can test a failed library call with
      `!= Success`. */
  function ConErrConv(rv: ConnectRv): (s: Status)
    ensures s == Success <==> rv == COk
    ensures s == ErrNotFound <==> rv == CNoDevice
    ensures s == ErrInvalidParam <==> rv == CWrongArguments
    ensures s == ErrBackend <==> rv.COther?
    ensures s != InProg && s != ErrNotSupported
  {
    if rv == COk then Success
    else if rv == CNoDevice then ErrNotFound
    else if rv == CWrongArguments then ErrInvalidParam
    else ErrBackend
  }

  /** A completion code is terminal once the io is no longer in transfer. */
  predicate IsTerminal(rv: IoError)
  {
    rv != EInTransfer
  }

  /** getCompStatus: the poll result is in-progress exactly while the io is in
      transfer and success exactly for E_OK; every unknown code is a backend error. */
  function CompStatus(rv: IoError): (s: Status)
    ensures s == InProg <==> !IsTerminal(rv)
    ensures s == Success <==> rv == EOk
    ensures s == ErrInvalidParam <==> rv == EInvalParams
    ensures s == ErrBackend <==> rv.EOther?
    ensures s != ErrNotFound && s != ErrNotSupported
  {
    if rv == EOk then Success
    else if rv == EInTransfer then InProg
    else if rv == EInvalParams then ErrInvalidParam
    else ErrBackend
  }
}

=== FILE: types.dfy ===
/**
 * Value types shared by the GUSLI block-storage backend model: the NIXL status
 * codes the backend returns, the GUSLI client library's result codes, memory
 * classes, descriptors and the device information record.
 */
module Types {

  datatype Option<+T> = None | Some(value: T)

  /** The NIXL status codes (nixl_status_t) this backend produces. */
  datatype Status =
    | Success
    | InProg
    | ErrNotFound
    | ErrInvalidParam
    | ErrBackend
    | ErrNotSupported

  /** Result of a GUSLI connect / disconnect / buffer (un)registration call (gusli::connect_rv). */
  datatype ConnectRv = COk | CNoDevice | CWrongArguments | COther(code: int)

  /** Completion code of a GUSLI io (gusli::io_error_codes). */
  datatype IoError = EOk | EInTransfer | EInvalParams | EOther(code: int)

  /** NIXL memory classes; only the two this backend knows are named. */
  datatype MemType = DramSeg | BlkSeg | OtherSeg(tag: nat)

  /** Direction of a NIXL transfer (nixl_xfer_op_t). */
  datatype XferOp = NixlRead | NixlWrite

  /** Direction of a GUSLI io (gusli::io_type). */
  datatype IoType = GRead | GWrite

  /** A device identifier (the descriptor's devId, a 64-bit value). */
  type DevId = nat

  /** One descriptor: process memory when local, a byte offset on a block device when remote. */
  datatype MetaDesc = MetaDesc(addr: nat, len: nat, devId: DevId)

  /** A descriptor list with its declared memory class. */
  datatype DescList = DescList(memType: MemType, descs: seq<MetaDesc>)

  /** What the GUSLI library reports about an opened block device (gusli::bdev_info). */
  datatype BdevInfo = BdevInfo(bdevDescriptor: int, blockSize: nat, numTotalBlocks: nat, name: string)

  /** A GUSLI client-library call made by the backend, as recorded in the engine's trace. */
  datatype LibCall =
    | Connect(dev: DevId)
    | GetInfo(dev: DevId)
    | Disconnect(dev: DevId)
    | BufsRegister(dev: DevId)
    | BufsUnregister(dev: DevId)

  /** A NIXL write becomes a GUSLI write; every other operation a GUSLI read. */
  function IoTypeOf(op: XferOp): (io: IoType)
    ensures io == GWrite <==> op == NixlWrite
  {
    if op == NixlWrite then GWrite else GRead
  }
}
